=== FILE: README.md ===
# Bus tracking dashboards — a Dafny model of their logic

This project models the logic inside a demonstration front-end for public-transit tracking. The front-end has a driver view and a passenger view, and all of its "live" data is simulated. The model covers four parts:

- **Driver trip lifecycle** (`DriverTrip`, in `driver_trip.dfy`). A trip is idle or active. The driver selects a route, starts the trip and ends it. While the trip is active, a repeating timer adds one to the duration and draws a random passenger count and location label. The page disables the route select and the buttons that do not apply. That gating is modelled as `Enabled`, and a disabled control does nothing.
- **Elapsed-time text** (`TripClock`, in `trip_clock.dfy`). The live display prints `H:MM:SS` from one hour on and `M:SS` below one hour. The end-of-trip toast prints `M:SS`, and its minutes are not reduced modulo 60. `ParseClock` reads both forms back. Both renderings are proved against it.
- **Driver map** (`DriverMap`, in `driver_map.dfy`). It holds the per-route stop table and `drawRoute` with its guards. Stop markers are numbered from 1. While a trip runs, the vehicle marker advances through the stops with index `(i + 1) mod n`. When the compiled key is the placeholder, a fallback card is shown instead of the map.
- **Passenger view** (`Passenger`, in `passenger.dfy`) and **live map** (`LiveMap`, in `live_map.dfy`). This covers the route planner's validation and its canned answer, the issue-report acknowledgement and the status badge. It also covers the key form that gates the live map, the guard in `initializeMap`, marker colours, the route caption (`split(' ')[1]`) and the marker map, which holds one entry per bus id.

Shared helpers are in `text.dfy` (`Text`: decimal printing, `padStart`, `split`, each with an inverse or a lemma that pins down its output) `notify.dfy` (`Notify`: `Option` and the toast record) and `arith.dfy` (`Arith`: uniqueness of quotient and remainder, used by the clock and the stop cycling).

Time and chance become inputs. The random passenger count is a `PassengerRoll` below 25, and the random location is a `LocationRoll` below 4. Each timer firing is an explicit event. The outcome of the map SDK load is a boolean parameter.

A few behaviours of the code are easy to misread, and the model keeps them as written:
- The duration goes up by 1 each time the 10-second trip timer fires (`src/pages/driver/DriverDashboard.tsx:30-31`). So the display's "seconds" count timer firings (`ActiveRunCountsTicks`).
- Ending a trip does not reset the duration (`src/pages/driver/DriverDashboard.tsx:64-71`). Only starting a trip sets it to 0.
- Below one hour the minutes are printed without padding (`0:05`, not `00:05`; `src/pages/driver/DriverDashboard.tsx:82`).
- The driver marker cycles through the stops modulo their count (`src/pages/driver/DriverMap.tsx:180`).
- Each call of `drawRoute` replaces the route polyline but adds new stop markers without removing the old ones (`src/pages/driver/DriverMap.tsx:110-145`). Choosing a second route while idle leaves the first route's numbered markers on the map (`SwitchingRoutesKeepsOldMarkers`).

In `LiveMap.updateApiKey`, the direct call to `initializeMap` happens while the key form is still mounted. The map element is therefore absent, and that call returns at once. The map is initialised by the effect that follows the hidden form. `InitializeMap` models this with its `showForm` guard.

The route table gives stop counts of 12, 15, 8 and 18. The driver map's stop lists hold 4, 4, 3 and 4 stops. The counts are display text and the model keeps them as data.

## Model

| member | source | states |
|---|---|---|
| TripClock.Decompose | src/pages/driver/DriverDashboard.tsx:75-77 | hours*3600 + minutes*60 + seconds equals the input, with minutes and seconds below 60 |
| TripClock.DecomposeUnique | src/pages/driver/DriverDashboard.tsx:75-77 | the decomposition is the only one with minutes and seconds below 60 |
| TripClock.FormatTimeShape | src/pages/driver/DriverDashboard.tsx:75-82 | three colon-separated fields iff seconds >= 3600, two otherwise; with hours, minutes and seconds are two digits; without, only seconds are padded and minutes carry no leading zero; the last field reads as total mod 60, the one before as (total mod 3600) div 60, and with three fields the first reads as total div 3600 |
| TripClock.FormatTime | src/pages/driver/DriverDashboard.tsx:74-83 | reading the display back gives exactly the elapsed count; it has three colon-separated fields iff the count is at least 3600 and two otherwise (the digits and value of each field are in FormatTimeShape) |
| TripClock.FormatTimeInjective | src/pages/driver/DriverDashboard.tsx:74-83 | different durations are displayed differently |
| TripClock.TripSummary | src/pages/driver/DriverDashboard.tsx:70 | the end-of-trip duration text has two colon-separated fields and reads back as the duration |
| TripClock.TripSummaryShape | src/pages/driver/DriverDashboard.tsx:70 | the summary has two fields: floor(d/60) unpadded and not reduced mod 60, then d%60 as two digits; read back it is d |
| TripClock.SummaryMatchesDisplayBelowHour | src/pages/driver/DriverDashboard.tsx:70 | below one hour the summary equals the live display text |
| TripClock.SummaryDiffersFromDisplayFromHour | src/pages/driver/DriverDashboard.tsx:70 | from one hour on the summary never equals the live display text |
| DriverTrip.RouteIdsAreTableIds | src/pages/driver/DriverDashboard.tsx:11-16 | the select's choices are exactly the route table's ids |
| DriverTrip.FindRoute | src/pages/driver/DriverDashboard.tsx:60 | `routes.find` succeeds iff some row has the id, and returns the first row of the table with that id |
| DriverTrip.RouteNamesFollowIds | src/pages/driver/DriverDashboard.tsx:11-16 | every selectable id is found and named "Route " + id |
| DriverTrip.StartTrip | src/pages/driver/DriverDashboard.tsx:45-61 | without a route the trip is unchanged and a destructive toast is emitted; with one the trip becomes active with duration 0 at the depot, and passengers and route are kept |
| DriverTrip.StartTripAnnouncesRoute | src/pages/driver/DriverDashboard.tsx:58-61 | the start toast reads "Now tracking Route <id>" |
| DriverTrip.EndTrip | src/pages/driver/DriverDashboard.tsx:64-71 | the trip goes idle at "Trip ended" with 0 passengers, the duration is kept, and the toast is the default-variant "Trip Ended" with the description "Total trip duration: " followed by the minutes:seconds summary, which reads back as that duration |
| DriverTrip.Tick | src/pages/driver/DriverDashboard.tsx:30-36 | the duration grows by exactly 1, passengers land in [5,29], the location is one of the four labels, and activity and route are unchanged |
| DriverTrip.Step | src/pages/driver/DriverDashboard.tsx:26-141 | an event on a disabled control (the select and Start while active, Start without a route, End and the timer while idle) changes nothing and emits nothing; the duration only changes by +1 on a timer firing or to 0 on Start; only Start and End emit a toast; an enabled choice selects its route and changes nothing else, an enabled Start makes the trip active at duration 0 on the chosen route, an enabled End makes it idle with 0 passengers, the duration kept and a toast, and a firing adds one to the duration of the still-active trip |
| DriverTrip.RunKeepsValid | src/pages/driver/DriverDashboard.tsx:19-72 | every reachable trip is valid: an active trip has a table route, a depot or stop location, and 0 or 5..29 passengers; an idle trip has 0 passengers and is waiting or ended |
| DriverTrip.StartNeedsRoute | src/pages/driver/DriverDashboard.tsx:125-127 | an idle trip becomes active only by pressing Start with a route selected |
| DriverTrip.RouteLockedWhileActive | src/pages/driver/DriverDashboard.tsx:106 | no event changes the selected route of an active trip |
| DriverTrip.ActiveRunCountsTicks | src/pages/driver/DriverDashboard.tsx:26-43 | until End is pressed, an active trip stays active on the same route and its duration grows by the number of timer firings |
| DriverTrip.IdleIgnoresTimer | src/pages/driver/DriverDashboard.tsx:29 | timer firings leave an idle (for example ended) trip, its duration included, unchanged |
| DriverTrip.SelectStartTick | src/pages/driver/DriverDashboard.tsx:29-57 | choosing 7A and starting gives an active trip at the depot with duration 0; one firing gives duration 1, a stop label and 5..29 passengers |
| DriverMap.StopTableCoversRoutes | src/pages/driver/DriverMap.tsx:28-52 | the stop table's routes are exactly the dashboard's, each with at least one stop |
| DriverMap.DrawRoute | src/pages/driver/DriverMap.tsx:103-123 | nothing is drawn iff there is no map, no route, or a route not in the stop table (route ids come from the dashboard's select); otherwise the path is the route's stop list with one marker per stop |
| DriverMap.StopMarkers | src/pages/driver/DriverMap.tsx:126-145 | one marker per stop, titled by the stop's name and labelled with its index + 1 |
| DriverMap.StopLabelsCountFromOne | src/pages/driver/DriverMap.tsx:126-133 | the labels read 1..n in path order, are canonical decimals, and are pairwise distinct |
| DriverMap.Redraw | src/pages/driver/DriverMap.tsx:103-145 | a guarded-out call leaves the map as it was; otherwise the polyline becomes the route's path, the markers after the old ones are exactly the route's stop markers, and every earlier marker is kept |
| DriverMap.SwitchingRoutesKeepsOldMarkers | src/pages/driver/DriverMap.tsx:110-145 | drawing 4B then 7A shows 7A's polyline with eight stop markers, the labels 1..4 twice |
| DriverMap.StartMovement | src/pages/driver/DriverMap.tsx:154-160 | no movement iff inactive, map not loaded, no route, or unknown route; otherwise the index starts at 0 |
| DriverMap.MoveStep | src/pages/driver/DriverMap.tsx:162-181 | a firing heads for the stop at the index and sets the index to (i+1) mod n, which stays below n |
| DriverMap.TargetsCycle | src/pages/driver/DriverMap.tsx:163-180 | from index i, the j-th firing heads for stop (i+j) mod n |
| DriverMap.AfterCycle | src/pages/driver/DriverMap.tsx:180 | after k firings from index i the index is (i+k) mod n |
| DriverMap.MovementVisitsInOrder | src/pages/driver/DriverMap.tsx:154-185 | from the start of movement, firing j heads for stops[j mod n] and k firings leave index k mod n |
| DriverMap.NoImmediateRepeat | src/pages/driver/DriverMap.tsx:180 | with more than one stop the index always changes |
| DriverMap.ActiveTripMoves | src/pages/driver/DriverMap.tsx:154-158 | for every reachable active dashboard trip on a loaded map, the route is drawn and movement starts |
| DriverMap.Mount | src/pages/driver/DriverMap.tsx:187-199 | the fallback card is shown iff the key is the placeholder; initialisation is attempted iff it is not; the map is loaded iff it is not and the load succeeds |
| DriverMap.CompiledKeyNeverDraws | src/pages/driver/DriverMap.tsx:10 | with the key as compiled the fallback is shown, and no route is drawn or marker moved |
| Passenger.PlanRoute | src/pages/passenger/PassengerDashboard.tsx:36-50 | an empty origin or destination yields only the validation toast; otherwise "Route Found" with origin then destination verbatim in the description; the form is unchanged |
| Passenger.PlanRouteSeparatesInputs | src/pages/passenger/PassengerDashboard.tsx:46-49 | two filled forms with origins of equal length get the same answer iff they are the same form |
| Passenger.PlanRouteAmbiguous | src/pages/passenger/PassengerDashboard.tsx:48 | without that condition different forms can get the same answer ("a to b"/"c" and "a"/"b to c") |
| Passenger.ReportIssue | src/pages/passenger/PassengerDashboard.tsx:29-34 | an "Issue Reported" acknowledgement whose description contains the route |
| Passenger.StatusBadge | src/pages/passenger/PassengerDashboard.tsx:86-89 | the variant is default iff the status is "on-time", destructive otherwise; the accent class goes with the default variant |
| Passenger.OnlyDelayedBusFlagged | src/pages/passenger/PassengerDashboard.tsx:11-16 | in the live list only bus 7A-002 gets a destructive badge |
| LiveMap.MarkerColour | src/components/maps/LiveMap.tsx:94 | green iff on time, red iff delayed, blue iff early |
| LiveMap.ColourShowsStatus | src/components/maps/LiveMap.tsx:94 | two statuses get the same hex colour iff they are equal |
| LiveMap.RouteLabel | src/components/maps/LiveMap.tsx:95 | the caption is a single word (no space); a route name without a space gives "undefined" (the second word itself is stated by RouteLabelIsSecondWord) |
| LiveMap.RouteLabelIsSecondWord | src/components/maps/LiveMap.tsx:95 | the caption is the second space-separated word, whatever follows it |
| LiveMap.RouteLabelOfOneWord | src/components/maps/LiveMap.tsx:95 | a one-word route has no second word and shows "undefined" |
| LiveMap.RouteLabelOfRouteName | src/components/maps/LiveMap.tsx:95 | "Route <id>" is captioned <id> |
| LiveMap.FleetLabels | src/components/maps/LiveMap.tsx:33-38 | the fleet's captions are 4B, 7A, 12C and 9D |
| LiveMap.MarkerFor | src/components/maps/LiveMap.tsx:91-107 | the marker is green iff the bus is on time and red iff delayed, its caption is RouteLabel of the route (one word, the second of the route name; see RouteLabelIsSecondWord), its title is the route, " - " and the arrival time, and its passenger text is the canonical decimal of the count |
| LiveMap.AddBusMarker | src/components/maps/LiveMap.tsx:88-125 | without a map nothing changes; otherwise the bus's marker is stored under its id and other entries are kept |
| LiveMap.AddAll | src/components/maps/LiveMap.tsx:69-71 | after the loop the keys are the old keys plus the buses' ids, and untouched entries are kept |
| LiveMap.AddAllMarksEveryBus | src/components/maps/LiveMap.tsx:69-71 | with distinct ids every bus's id maps to the marker built from that bus |
| LiveMap.FleetMarkers | src/components/maps/LiveMap.tsx:33-38 | placing the fleet leaves exactly one marker per fleet bus id, each built from its bus |
| LiveMap.InitializeMap | src/components/maps/LiveMap.tsx:40-86 | no effect while the form is shown or the key is empty or the placeholder; a failed load only reports an error; a successful one loads and adds the fleet's markers |
| LiveMap.Mount | src/components/maps/LiveMap.tsx:28-29 | the key form is shown iff the compiled key is the placeholder, and then nothing is loaded |
| LiveMap.CompiledKeyShowsForm | src/components/maps/LiveMap.tsx:21-29 | with the key as compiled the page opens on the key form with no map |
| LiveMap.UpdateApiKey | src/components/maps/LiveMap.tsx:128-139 | a usable key hides the form and initialises the map; any other key keeps the state and emits a destructive toast |
| LiveMap.ChangeApiKey | src/components/maps/LiveMap.tsx:229 | the form is shown again; the key, the loaded flag and the markers are kept |
| LiveMap.Step | src/components/maps/LiveMap.tsx:185-233 | while the map is shown, no event changes the key, the loaded flag or the markers; only typing on the form changes the key; a loaded map stays loaded; the map becomes loaded only by Load on the form with a usable key and a successful SDK load; typing on the form sets the key to the typed text, Load with a usable key hides the form and with any other key changes nothing, and Change beside the map brings the form back |
| LiveMap.InitializeKeepsValid | src/components/maps/LiveMap.tsx:65-71 | initialisation keeps the map at one marker per bus id |
| LiveMap.RunKeepsValid | src/components/maps/LiveMap.tsx:125-145 | across any sequence of key edits, loads and key changes, the loaded map holds exactly one marker per bus, as many as the fleet |
| Text.ValueOfNatToString | src/pages/driver/DriverDashboard.tsx:80 | `toString` of a number reads back as that number |
| Text.NatToString | src/pages/driver/DriverDashboard.tsx:80 | `toString` of a non-negative integer is canonical decimal text, starting with '0' iff the number is 0 (ValueOfNatToString reads it back) |
| Text.ZeroPadKeepsValue | src/pages/driver/DriverDashboard.tsx:80 | `padStart(2, '0')` keeps a digit string's value |
| Text.PadStart | src/pages/driver/DriverDashboard.tsx:80 | `padStart` yields max(length, width) characters: fill characters, then the input unchanged |
| Text.JoinSplit | src/components/maps/LiveMap.tsx:95 | joining the pieces of `split` restores the text |
| Text.Split | src/components/maps/LiveMap.tsx:95 | `split` on one character gives at least one piece and no piece contains the separator (JoinSplit and SplitJoin make it the inverse of Join) |
| Text.SplitJoin | src/components/maps/LiveMap.tsx:95 | splitting a join of separator-free pieces gives the pieces back |

## Left out

- Map SDK calls are not modelled: the loader, map creation, markers, polylines, info windows, `fitBounds` and `panTo`. They are foreign calls. A map is a loaded flag, and markers are records.
- Coordinates and their random jitter are not modelled: LiveMap's 5-second jitter and DriverMap's per-stop jitter are floating point. The vehicle's position is the index of the stop it heads for.
- The LiveMap 5-second update timer is not modelled. It only moves markers to jittered coordinates, so it never changes the marker map's keys.
- Interval scheduling and effect clean-up are not modelled. Each firing is an explicit event, and a timer is fired only while its component's guard holds.
- Toast rendering is not modelled. A toast is its title, description and variant.
- The icon SVG data URIs, `encodeURIComponent`, info-window HTML, CSS classes and layout are not modelled. The marker record keeps only what they show: colour, caption, passenger count and title.
- The landing page and the layout wrapper are not modelled. They contain no logic.
- The static nearby-stops list, the sample itinerary, the WhatsApp button and the driver's emergency button are not modelled. They have no behaviour.
- DriverMap's `currentLocation` prop and the route badge are display-only and are not modelled.
- DriverMap.Mount: the `mapRef.current` null check is not modelled separately. The map element is always rendered when the key is not the placeholder.
- DriverTrip.Tick: the duration is a JavaScript number, so `prev + 1` is exact only below 2^53; the model's unbounded `+1` (and `ActiveRunCountsTicks`) holds only in that range, which at one firing per 10 seconds no trip reaches.
- Text.NatToString: JavaScript prints numbers of 10^21 and above in exponential notation. The model always prints plain decimals. Trip durations never get near that size.
- DriverTrip.StartTrip: its "Route Required" branch is modelled, but in `Step` it is unreachable. The Start button is disabled without a route (`StartNeedsRoute`).
- DriverMap.DrawRoute: route ids are taken from the dashboard's select, which offers only the four table ids. The stop table is a plain object, so an id such as "constructor" or "toString" would find an inherited property, pass the `if (!stops)` guard and fail at `stops.forEach`; the model treats every id outside the table as unknown.
- LiveMap.InitializeMap and DriverMap.Mount: the wait on the SDK loader is not modelled; each initialisation is one step. While the load is pending the "Change API Key" button is already on screen and can be pressed first; what the pending load then does with the hidden map element is not modelled.
- The `console.error` logging when the SDK fails to load is not modelled. It has no effect on state.

=== FILE: arith.dfy ===
/**
 Facts about Euclidean division by a positive constant that the solver does
 not find on its own: the quotient and remainder are unique, and adding
 whole multiples of the divisor does not move the remainder.
 */
module Arith {

  /** If `n = q * d + r` with `r < d`, then `q` and `r` are the quotient and remainder. */
  lemma DivModUnique(n: nat, d: nat, q: nat, r: nat)
    requires d > 0 && r < d && n == q * d + r
    ensures n / d == q && n % d == r
  {
    var q', r' := n / d, n % d;
    assert (q - q') * d == r' - r;
    if q > q' {
      MulAtLeast(q - q', d);
    } else if q < q' {
      MulAtLeast(q' - q, d);
    }
  }

  lemma MulAtLeast(k: int, d: nat)
    requires k >= 1
    ensures k * d >= d
  {
  }

  lemma ModAddMultiple(a: nat, q: nat, n: nat)
    requires n > 0
    ensures (a + q * n) % n == a % n
  {
    var r := a % n;
    var p := a / n;
    assert a + q * n == (p + q) * n + r;
    DivModUnique(a + q * n, n, p + q, r);
  }

  /** Reducing `i + 1` before adding `j` gives the same remainder as reducing `i + 1 + j`. */
  lemma ModStep(i: nat, j: nat, n: nat)
    requires n > 0
    ensures ((i + 1) % n + j) % n == (i + 1 + j) % n
  {
    var q := (i + 1) / n;
    assert i + 1 == q * n + (i + 1) % n;
    ModAddMultiple((i + 1) % n + j, q, n);
    assert (i + 1 + j) == (i + 1) % n + j + q * n;
  }
}

=== FILE: driver_map.dfy ===
/**
 The logic of the driver map: the per-route stop table, drawing a route with
 stop markers numbered from 1, the marker that cycles through the stops while
 the trip is active, and the fallback shown when no real map key is compiled
 in. Coordinates and their random jitter are not modelled: a stop is its name
 and the vehicle's position is the index of the stop it heads for.
 */
module DriverMap {
  import opened Text
  import opened Notify
  import opened Arith
  import DriverTrip

  datatype Stop = Stop(name: string)

  const RouteStops: map<string, seq<Stop>> := map[
    "4B" := [Stop("Downtown Plaza"), Stop("Main Street"), Stop("City Center"), Stop("Airport Terminal")],
    "7A" := [Stop("Central Station"), Stop("University"), Stop("Library"), Stop("Hospital")],
    "12C" := [Stop("Mall"), Stop("Shopping Center"), Stop("Industrial Area")],
    "9D" := [Stop("Residential"), Stop("Park"), Stop("Business District"), Stop("Convention Center")]
  ]

  /** The stop table covers exactly the routes the dashboard offers, each with at least one stop. */
  lemma StopTableCoversRoutes(id: string)
    ensures id in RouteStops <==> id in DriverTrip.RouteIds
    ensures id in RouteStops ==> |RouteStops[id]| >= 1
  {
  }

  // ----- Drawing a route -----

  /** A numbered stop marker: the stop's name as title, its 1-based position as caption (the marker label). */
  datatype StopMarker = StopMarker(title: string, caption: string)

  datatype Drawing = Drawing(path: seq<Stop>, markers: seq<StopMarker>)

  function StopMarkers(stops: seq<Stop>): (ms: seq<StopMarker>)
    ensures |ms| == |stops|
    ensures forall i :: 0 <= i < |stops| ==> ms[i].title == stops[i].name && ms[i].caption == NatToString(i + 1)
  {
    seq(|stops|, i requires 0 <= i < |stops| => StopMarker(stops[i].name, NatToString(i + 1)))
  }

  /**
   `drawRoute`: nothing is drawn without a loaded map, without a selected
   route, or for a route missing from the stop table; otherwise the polyline
   runs through the route's stops in order and every stop gets a marker.
   */
  function DrawRoute(mapLoaded: bool, selectedRoute: string): (r: Option<Drawing>)
    ensures r.None? <==> !mapLoaded || selectedRoute == "" || selectedRoute !in RouteStops
    ensures r.Some? ==> r.value.path == RouteStops[selectedRoute] && |r.value.markers| == |r.value.path|
  {
    if !mapLoaded || selectedRoute == "" then None
    else if selectedRoute !in RouteStops then None
    else
      var stops := RouteStops[selectedRoute];
      Some(Drawing(stops, StopMarkers(stops)))
  }

  /**
   The stop markers of a drawn route are labelled 1, 2, ..., n in path order,
   each label the canonical decimal text of its number, and no two alike.
   */
  lemma StopLabelsCountFromOne(mapLoaded: bool, selectedRoute: string)
    requires DrawRoute(mapLoaded, selectedRoute).Some?
    ensures var d := DrawRoute(mapLoaded, selectedRoute).value;
      && (forall i :: 0 <= i < |d.markers| ==>
            IsCanonical(d.markers[i].caption) && Value(d.markers[i].caption) == i + 1
            && d.markers[i].title == d.path[i].name)
      && (forall i, j :: 0 <= i < j < |d.markers| ==> d.markers[i].caption != d.markers[j].caption)
  {
    var d := DrawRoute(mapLoaded, selectedRoute).value;
    forall i | 0 <= i < |d.markers|
      ensures Value(d.markers[i].caption) == i + 1
    {
      ValueOfNatToString(i + 1);
    }
    forall i, j | 0 <= i < j < |d.markers|
      ensures d.markers[i].caption != d.markers[j].caption
    {
      NatToStringInjective(i + 1, j + 1);
    }
  }

  /**
   What `drawRoute` leaves on the map across calls: the polyline is kept in a
   ref and replaced, but the stop markers are never stored, so each drawing
   adds its markers to those already shown.
   */
  datatype MapView = MapView(polyline: Option<seq<Stop>>, stopMarkers: seq<StopMarker>)

  const Blank := MapView(None, [])

  /**
   One run of `drawRoute` on the map: a guarded-out call changes nothing;
   otherwise the polyline becomes the route's path and the route's markers
   are added after the old ones, none of which is removed.
   */
  function Redraw(v: MapView, mapLoaded: bool, selectedRoute: string): (r: MapView)
    ensures DrawRoute(mapLoaded, selectedRoute).None? ==> r == v
    ensures DrawRoute(mapLoaded, selectedRoute).Some? ==>
      && r.polyline == Some(RouteStops[selectedRoute])
      && |r.stopMarkers| == |v.stopMarkers| + |RouteStops[selectedRoute]|
      && r.stopMarkers[..|v.stopMarkers|] == v.stopMarkers
      && r.stopMarkers[|v.stopMarkers|..] == StopMarkers(RouteStops[selectedRoute])
  {
    match DrawRoute(mapLoaded, selectedRoute)
    case None => v
    case Some(d) => MapView(Some(d.path), v.stopMarkers + d.markers)
  }

  /**
   Choosing 4B and then 7A on a loaded map leaves 7A's polyline alone but
   eight stop markers: 4B's four are still there, so the labels 1 to 4 appear
   twice.
   */
  lemma SwitchingRoutesKeepsOldMarkers()
    ensures var v := Redraw(Redraw(Blank, true, "4B"), true, "7A");
      && v.polyline == Some(RouteStops["7A"])
      && |v.stopMarkers| == 8
      && v.stopMarkers[0].title == "Downtown Plaza" && v.stopMarkers[4].title == "Central Station"
      && v.stopMarkers[0].caption == v.stopMarkers[4].caption == "1"
  {
    var v1 := Redraw(Blank, true, "4B");
    assert v1.stopMarkers == StopMarkers(RouteStops["4B"]);
    var v := Redraw(v1, true, "7A");
    assert v.stopMarkers == v1.stopMarkers + StopMarkers(RouteStops["7A"]);
    assert NatToString(1) == "1";
  }

  // ----- Cycling through the stops -----

  /** The movement timer's private state: the route's stops and the index of the next one. */
  datatype Mover = Mover(stops: seq<Stop>, index: nat)

  predicate InRange(m: Mover) {
    m.index < |m.stops|
  }

  /**
   The movement effect: no timer unless the trip is active, the map is
   loaded, a route is selected and the table knows it; otherwise a timer
   whose index starts at 0.
   */
  function StartMovement(active: bool, mapLoaded: bool, selectedRoute: string): (r: Option<Mover>)
    ensures r.None? <==> !active || !mapLoaded || selectedRoute == "" || selectedRoute !in RouteStops
    ensures r.Some? ==> r.value.index == 0 && r.value.stops == RouteStops[selectedRoute] && InRange(r.value)
  {
    if !active || !mapLoaded || selectedRoute == "" then None
    else if selectedRoute !in RouteStops then None
    else Some(Mover(RouteStops[selectedRoute], 0))
  }

  datatype Move = Move(target: Option<Stop>, next: Mover)

  /** One firing of the movement timer: head for the current stop, then advance the index modulo the stop count. */
  function MoveStep(m: Mover): (r: Move)
    ensures InRange(m) ==> r.target == Some(m.stops[m.index]) && InRange(r.next)
    ensures InRange(m) ==> r.next.index == (m.index + 1) % |m.stops| && r.next.stops == m.stops
    ensures !InRange(m) ==> r.target.None? && r.next == m
  {
    if m.index < |m.stops| then
      Move(Some(m.stops[m.index]), m.(index := (m.index + 1) % |m.stops|))
    else
      Move(None, m)
  }

  /** The stops the marker heads for during `k` timer firings. */
  function Targets(m: Mover, k: nat): seq<Stop>
    decreases k
  {
    if k == 0 then []
    else
      var mv := MoveStep(m);
      (if mv.target.Some? then [mv.target.value] else []) + Targets(mv.next, k - 1)
  }

  /** The index after `k` timer firings. */
  function After(m: Mover, k: nat): Mover
    decreases k
  {
    if k == 0 then m else After(MoveStep(m).next, k - 1)
  }

  /**
   Starting from index `i`, the `j`-th firing heads for stop `(i + j) mod n`
   and leaves the index at `(i + k) mod n` after `k` firings: stops are visited
   in list order and wrap from the last back to the first.
   */
  lemma TargetsCycle(m: Mover, k: nat)
    requires InRange(m)
    ensures |Targets(m, k)| == k
    ensures forall j :: 0 <= j < k ==> Targets(m, k)[j] == m.stops[(m.index + j) % |m.stops|]
  {
    TargetsLength(m, k);
    forall j | 0 <= j < k
      ensures Targets(m, k)[j] == m.stops[(m.index + j) % |m.stops|]
    {
      TargetIsAfter(m, k, j);
      AfterCycle(m, j);
    }
  }

  /** While the index is in range every firing yields a target. */
  lemma {:induction false} TargetsLength(m: Mover, k: nat)
    requires InRange(m)
    ensures |Targets(m, k)| == k
    decreases k
  {
    if k > 0 {
      TargetsUnfold(m, k);
      TargetsLength(MoveStep(m).next, k - 1);
    }
  }

  /** The `j`-th firing heads for the stop at the index reached after `j` firings. */
  lemma {:induction false} TargetIsAfter(m: Mover, k: nat, j: nat)
    requires InRange(m) && j < k
    ensures After(m, j).stops == m.stops && InRange(After(m, j))
    ensures |Targets(m, k)| == k
    ensures Targets(m, k)[j] == m.stops[After(m, j).index]
    decreases j
  {
    var next := MoveStep(m).next;
    TargetsUnfold(m, k);
    TargetsLength(next, k - 1);
    if j > 0 {
      TargetIsAfter(next, k - 1, j - 1);
      assert After(m, j) == After(next, j - 1);
    }
  }

  /** The first firing heads for the current stop; the rest continue from the advanced index. */
  lemma TargetsUnfold(m: Mover, k: nat)
    requires InRange(m) && k > 0
    ensures Targets(m, k) == [m.stops[m.index]] + Targets(MoveStep(m).next, k - 1)
  {
  }

  /** After `k` firings from index `i` the index is `(i + k) mod n`. */
  lemma {:induction false} AfterCycle(m: Mover, k: nat)
    requires InRange(m)
    ensures After(m, k) == m.(index := (m.index + k) % |m.stops|)
    decreases k
  {
    var n := |m.stops|;
    if k == 0 {
      DivModUnique(m.index, n, 0, m.index);
    } else {
      var next := MoveStep(m).next;
      var i1 := (m.index + 1) % n;
      assert next == m.(index := i1);
      AfterCycle(next, k - 1);
      assert After(m, k) == After(next, k - 1);
      ModStep(m.index, k - 1, n);
      assert (i1 + (k - 1)) % n == (m.index + k) % n;
    }
  }

  /** From the start of a trip the `j`-th firing heads for stop `j mod n`. */
  lemma MovementVisitsInOrder(active: bool, mapLoaded: bool, selectedRoute: string, k: nat)
    requires StartMovement(active, mapLoaded, selectedRoute).Some?
    ensures var m := StartMovement(active, mapLoaded, selectedRoute).value;
      && |Targets(m, k)| == k
      && After(m, k).index == k % |m.stops|
      && forall j :: 0 <= j < k ==> Targets(m, k)[j] == RouteStops[selectedRoute][j % |RouteStops[selectedRoute]|]
  {
    var m := StartMovement(active, mapLoaded, selectedRoute).value;
    assert m == Mover(RouteStops[selectedRoute], 0);
    FromFirstStop(m, k);
  }

  /** From index 0 the `j`-th firing heads for stop `j mod n` and `k` firings leave the index at `k mod n`. */
  lemma FromFirstStop(m: Mover, k: nat)
    requires InRange(m) && m.index == 0
    ensures |Targets(m, k)| == k
    ensures After(m, k).index == k % |m.stops|
    ensures forall j :: 0 <= j < k ==> Targets(m, k)[j] == m.stops[j % |m.stops|]
  {
    TargetsCycle(m, k);
    AfterCycle(m, k);
  }

  /** With more than one stop consecutive firings never head for the same stop index twice in a row. */
  lemma NoImmediateRepeat(m: Mover)
    requires InRange(m) && |m.stops| > 1
    ensures MoveStep(m).next.index != m.index
  {
    var n := |m.stops|;
    if m.index + 1 < n {
      assert (m.index + 1) % n == m.index + 1;
    } else {
      assert (m.index + 1) % n == 0;
    }
  }

  /** On a loaded map an active trip of the dashboard always gets its marker moving: its route is in the stop table. */
  lemma ActiveTripMoves(t: DriverTrip.Trip)
    requires DriverTrip.Valid(t) && t.active
    ensures StartMovement(t.active, true, t.selectedRoute).Some?
    ensures DrawRoute(true, t.selectedRoute).Some?
  {
    StopTableCoversRoutes(t.selectedRoute);
  }

  // ----- Map key gating -----

  const Placeholder := "YOUR_GOOGLE_MAPS_API_KEY_HERE"
  /** The key compiled into the driver map. */
  const CompiledKey := "YOUR_GOOGLE_MAPS_API_KEY_HERE"

  datatype View = FallbackCard | NavigationCard

  datatype MapState = MapState(view: View, initAttempted: bool, loaded: bool)

  /**
   Mounting the driver map: with the placeholder key the fallback card is
   shown and the map is never initialised; otherwise initialisation runs and
   the map is loaded iff the SDK load succeeds.
   */
  function Mount(key: string, loadSucceeds: bool): (r: MapState)
    ensures key == Placeholder <==> r.view == FallbackCard
    ensures r.initAttempted <==> key != Placeholder
    ensures r.loaded <==> key != Placeholder && loadSucceeds
  {
    if key == Placeholder then MapState(FallbackCard, false, false)
    else MapState(NavigationCard, true, loadSucceeds)
  }

  /** With the key as compiled the map never loads, so no route is drawn and the marker never moves. */
  lemma CompiledKeyNeverDraws(loadSucceeds: bool, active: bool, selectedRoute: string)
    ensures Mount(CompiledKey, loadSucceeds).view == FallbackCard
    ensures DrawRoute(Mount(CompiledKey, loadSucceeds).loaded, selectedRoute).None?
    ensures StartMovement(active, Mount(CompiledKey, loadSucceeds).loaded, selectedRoute).None?
  {
  }
}

=== FILE: driver_trip.dfy ===
/**
 The trip lifecycle of the driver dashboard as a state machine. A trip is
 idle or active; the driver picks a route, starts the trip, and ends it. A
 repeating timer fires while the trip is active; its random passenger count
 and location pick arrive here as bounded rolls. Buttons and the route
 select that the page disables do nothing when pressed.
 */
module DriverTrip {
  import opened Text
  import opened Notify
  import opened TripClock

  /** A row of the dashboard's route table. */
  datatype Route = Route(id: string, name: string, description: string, stops: nat)

  const Routes: seq<Route> := [
    Route("4B", "Route 4B", "Downtown ↔ Airport", 12),
    Route("7A", "Route 7A", "Central Station ↔ University", 15),
    Route("12C", "Route 12C", "Mall ↔ Industrial Area", 8),
    Route("9D", "Route 9D", "Residential ↔ Business District", 18)
  ]

  /** The ids the route select offers, written out; `RouteIdsAreTableIds` proves they are the id column of `Routes`. */
  const RouteIds: set<string> := {"4B", "7A", "12C", "9D"}

  /** The select's choices are exactly the ids of the route table. */
  lemma RouteIdsAreTableIds(id: string)
    ensures id in RouteIds <==> exists i :: 0 <= i < |Routes| && Routes[i].id == id
  {
    if id in RouteIds {
      assert Routes[0].id == "4B" && Routes[1].id == "7A" && Routes[2].id == "12C" && Routes[3].id == "9D";
    }
  }

  /** The values the route select offers. */
  type RouteChoice = id: string | id in RouteIds witness "4B"

  /** The first route with the given id, as `routes.find`. */
  function FindRoute(rs: seq<Route>, id: string): (r: Option<Route>)
    ensures r.Some? <==> exists i :: 0 <= i < |rs| && rs[i].id == id
    ensures r.Some? ==> r.value in rs && r.value.id == id
    ensures r.Some? ==> exists i :: 0 <= i < |rs| && rs[i] == r.value && forall j :: 0 <= j < i ==> rs[j].id != id
  {
    if |rs| == 0 then None
    else if rs[0].id == id then Some(rs[0])
    else FindRoute(rs[1..], id)
  }

  /** Every route's display name is "Route " followed by its id. */
  lemma RouteNamesFollowIds(id: string)
    requires id in RouteIds
    ensures FindRoute(Routes, id).Some?
    ensures FindRoute(Routes, id).value.name == "Route " + id
  {
  }

  const Waiting := "Waiting for GPS..."
  const Depot := "Starting location - Depot"
  const Ended := "Trip ended"
  const StopLabels: seq<string> := [
    "Stop 1 - Downtown Plaza", "Stop 2 - Main Street", "Stop 3 - City Center", "Stop 4 - Airport Terminal"
  ]

  /** `Math.floor(Math.random() * 25)`: the random part of the simulated passenger count. */
  type PassengerRoll = r: nat | r < 25
  /** `Math.floor(Math.random() * locations.length)`: the index of the simulated location. */
  type LocationRoll = k: nat | k < 4

  datatype Trip = Trip(selectedRoute: string, active: bool, location: string, passengers: nat, duration: nat)

  const Initial := Trip("", false, Waiting, 0, 0)

  datatype Outcome = Outcome(trip: Trip, toast: Option<Toast>)

  /** `startTrip`: refused with a validation toast when no route is selected. */
  function StartTrip(t: Trip): (r: Outcome)
    ensures t.selectedRoute == "" ==> r.trip == t && r.toast.Some? && r.toast.value.variant == Destructive
    ensures t.selectedRoute != "" ==>
      && r.trip.active && r.trip.duration == 0 && r.trip.location == Depot
      && r.trip.passengers == t.passengers && r.trip.selectedRoute == t.selectedRoute
      && r.toast.Some? && r.toast.value.variant == Default
  {
    if t.selectedRoute == "" then
      Outcome(t, Some(Toast("Route Required", "Please select a route before starting your trip.", Destructive)))
    else
      var name := match FindRoute(Routes, t.selectedRoute)
        case Some(route) => route.name
        case None => "undefined";
      Outcome(t.(active := true, duration := 0, location := Depot),
              Some(Toast("Trip Started", "Now tracking " + name, Default)))
  }

  /** Starting with a route from the table announces that route by its display name. */
  lemma StartTripAnnouncesRoute(t: Trip)
    requires t.selectedRoute in RouteIds
    ensures StartTrip(t).toast == Some(Toast("Trip Started", "Now tracking Route " + t.selectedRoute, Default))
  {
    RouteNamesFollowIds(t.selectedRoute);
    assert "Now tracking " + ("Route " + t.selectedRoute) == "Now tracking Route " + t.selectedRoute;
  }

  /**
   `endTrip`: the trip goes idle, the location becomes "Trip ended" and the
   passenger count 0; the duration is kept, and the toast reports it in the
   summary form, which reads back as exactly that duration.
   */
  function EndTrip(t: Trip): (r: Outcome)
    ensures !r.trip.active && r.trip.location == Ended && r.trip.passengers == 0
    ensures r.trip.duration == t.duration && r.trip.selectedRoute == t.selectedRoute
    ensures r.toast.Some? && r.toast.value.title == "Trip Ended" && r.toast.value.variant == Default
    ensures r.toast.value.description == "Total trip duration: " + TripSummary(t.duration)
    ensures var d := r.toast.value.description;
      && |d| >= |"Total trip duration: "|
      && d[..|"Total trip duration: "|] == "Total trip duration: "
      && ParseClock(d[|"Total trip duration: "|..]) == Some(t.duration)
  {
    var summary := TripSummary(t.duration);
    TripSummaryShape(t.duration);
    var d := "Total trip duration: " + summary;
    assert d[|"Total trip duration: "|..] == summary;
    Outcome(t.(active := false, location := Ended, passengers := 0), Some(Toast("Trip Ended", d, Default)))
  }

  /** One firing of the trip timer: one more unit of duration, a fresh passenger count and location. */
  function Tick(t: Trip, p: PassengerRoll, k: LocationRoll): (r: Trip)
    ensures r.duration == t.duration + 1
    ensures 5 <= r.passengers <= 29
    ensures r.location in StopLabels
    ensures r.active == t.active && r.selectedRoute == t.selectedRoute
  {
    t.(duration := t.duration + 1, passengers := p + 5, location := StopLabels[k])
  }

  datatype Event =
    | ChooseRoute(id: RouteChoice)
    | PressStart
    | PressEnd
    | TimerFires(p: PassengerRoll, k: LocationRoll)

  /** Whether the page lets the event happen: disabled controls and the timer that only runs while active. */
  predicate Enabled(t: Trip, e: Event) {
    match e
    case ChooseRoute(_) => !t.active
    case PressStart => !t.active && t.selectedRoute != ""
    case PressEnd => t.active
    case TimerFires(_, _) => t.active
  }

  /**
   One event on the dashboard. A control the page disables does nothing; the
   duration only moves by one on a timer firing or back to 0 on Start; only
   Start and End emit a toast. An enabled choice selects its route, an
   enabled Start starts the trip from 0, an enabled End ends it keeping the
   duration, and a firing counts one more unit.
   */
  function Step(t: Trip, e: Event): (r: Outcome)
    ensures !Enabled(t, e) ==> r == Outcome(t, None)
    ensures || r.trip.duration == t.duration
            || (e.TimerFires? && r.trip.duration == t.duration + 1)
            || (e == PressStart && r.trip.duration == 0)
    ensures r.toast.Some? ==> e == PressStart || e == PressEnd
    ensures Enabled(t, e) && e.ChooseRoute? ==> r.trip == t.(selectedRoute := e.id)
    ensures Enabled(t, e) && e == PressStart ==>
      r.trip.active && r.trip.duration == 0 && r.trip.selectedRoute == t.selectedRoute
    ensures Enabled(t, e) && e == PressEnd ==>
      !r.trip.active && r.trip.duration == t.duration && r.trip.passengers == 0 && r.toast.Some?
    ensures Enabled(t, e) && e.TimerFires? ==> r.trip.active && r.trip.duration == t.duration + 1
  {
    if !Enabled(t, e) then Outcome(t, None)
    else match e
      case ChooseRoute(id) => Outcome(t.(selectedRoute := id), None)
      case PressStart => StartTrip(t)
      case PressEnd => EndTrip(t)
      case TimerFires(p, k) => Outcome(Tick(t, p, k), None)
  }

  function Run(t: Trip, es: seq<Event>): Trip
    decreases |es|
  {
    if |es| == 0 then t else Run(Step(t, es[0]).trip, es[1..])
  }

  /**
   What holds of every trip the page can reach: an active trip has a route
   from the table, the depot or a stop label as location, and no passengers
   or a simulated count in [5, 29]; an idle trip has no passengers and is
   waiting for GPS or ended.
   */
  predicate Valid(t: Trip) {
    && (t.selectedRoute == "" || t.selectedRoute in RouteIds)
    && (t.active ==>
          && t.selectedRoute in RouteIds
          && (t.location == Depot || t.location in StopLabels)
          && (t.passengers == 0 || 5 <= t.passengers <= 29))
    && (!t.active ==> t.passengers == 0 && (t.location == Waiting || t.location == Ended))
  }

  lemma InitialValid()
    ensures Valid(Initial)
  {
  }

  lemma StepKeepsValid(t: Trip, e: Event)
    requires Valid(t)
    ensures Valid(Step(t, e).trip)
  {
  }

  /** Every state reachable from the initial one is valid. */
  lemma {:induction false} RunKeepsValid(t: Trip, es: seq<Event>)
    requires Valid(t)
    ensures Valid(Run(t, es))
    decreases |es|
  {
    if |es| > 0 {
      StepKeepsValid(t, es[0]);
      RunKeepsValid(Step(t, es[0]).trip, es[1..]);
    }
  }

  /** A started trip always has a route: the Start button needs one. */
  lemma StartNeedsRoute(t: Trip, e: Event)
    requires !t.active && Step(t, e).trip.active
    ensures e == PressStart && t.selectedRoute != ""
  {
  }

  /** No event changes the selected route of an active trip. */
  lemma RouteLockedWhileActive(t: Trip, e: Event)
    requires t.active
    ensures Step(t, e).trip.selectedRoute == t.selectedRoute
  {
  }

  function CountTicks(es: seq<Event>): nat
    decreases |es|
  {
    if |es| == 0 then 0 else (if es[0].TimerFires? then 1 else 0) + CountTicks(es[1..])
  }

  /**
   While no End is pressed an active trip stays active on the same route,
   and its duration grows by exactly the number of timer firings.
   */
  lemma {:induction false} ActiveRunCountsTicks(t: Trip, es: seq<Event>)
    requires t.active
    requires forall i :: 0 <= i < |es| ==> es[i] != PressEnd
    ensures Run(t, es).active
    ensures Run(t, es).selectedRoute == t.selectedRoute
    ensures Run(t, es).duration == t.duration + CountTicks(es)
    decreases |es|
  {
    if |es| > 0 {
      var t' := Step(t, es[0]).trip;
      assert t'.active && t'.selectedRoute == t.selectedRoute;
      assert t'.duration == t.duration + (if es[0].TimerFires? then 1 else 0);
      ActiveRunCountsTicks(t', es[1..]);
    }
  }

  /** Once a trip is idle, timer firings change nothing: the duration is frozen. */
  lemma {:induction false} IdleIgnoresTimer(t: Trip, es: seq<Event>)
    requires !t.active
    requires forall i :: 0 <= i < |es| ==> es[i].TimerFires?
    ensures Run(t, es) == t
    decreases |es|
  {
    if |es| > 0 {
      IdleIgnoresTimer(t, es[1..]);
    }
  }

  /** Choosing 7A, starting, and one timer firing gives the documented state. */
  lemma SelectStartTick(p: PassengerRoll, k: LocationRoll)
    ensures var t := Run(Initial, [ChooseRoute("7A"), PressStart]);
      && t.active && t.duration == 0 && t.location == Depot
    ensures var t := Run(Initial, [ChooseRoute("7A"), PressStart, TimerFires(p, k)]);
      && t.active && t.duration == 1 && t.location in StopLabels && 5 <= t.passengers <= 29
  {
    var t1 := Step(Initial, ChooseRoute("7A")).trip;
    var t2 := Step(t1, PressStart).trip;
    var t3 := Step(t2, TimerFires(p, k)).trip;
    assert t2.active && t2.duration == 0 && t2.location == Depot;
    RunTwo(Initial, ChooseRoute("7A"), PressStart);
    RunThree(Initial, ChooseRoute("7A"), PressStart, TimerFires(p, k));
  }

  lemma RunTwo(t: Trip, a: Event, b: Event)
    ensures Run(t, [a, b]) == Step(Step(t, a).trip, b).trip
  {
    assert [a, b][1..] == [b];
    assert [b][1..] == [];
    var t1 := Step(t, a).trip;
    assert Run(t1, [b]) == Run(Step(t1, b).trip, []);
  }

  lemma RunThree(t: Trip, a: Event, b: Event, c: Event)
    ensures Run(t, [a, b, c]) == Step(Step(Step(t, a).trip, b).trip, c).trip
  {
    assert [a, b, c][1..] == [b, c];
    RunTwo(Step(t, a).trip, b, c);
  }
}

=== FILE: live_map.dfy ===
/**
 The passenger-facing live map: the key form that gates the map, the guard
 on map initialisation, and the markers it places, one per bus id, coloured
 by status and captioned with the route's second word. The SDK load is an
 outcome passed in; the position jitter timer is not modelled.
 */
module LiveMap {
  import opened Text
  import opened Notify

  datatype Status = OnTime | Delayed | Early

  datatype Bus = Bus(id: string, route: string, status: Status, passengers: nat, eta: string)

  const Fleet: seq<Bus> := [
    Bus("4B-001", "Route 4B", OnTime, 18, "3 min"),
    Bus("7A-002", "Route 7A", Delayed, 24, "7 min"),
    Bus("12C-001", "Route 12C", OnTime, 8, "12 min"),
    Bus("9D-003", "Route 9D", Early, 31, "15 min")
  ]

  function Ids(buses: seq<Bus>): set<string> {
    set i | 0 <= i < |buses| :: buses[i].id
  }

  predicate DistinctIds(buses: seq<Bus>) {
    forall i, j :: 0 <= i < j < |buses| ==> buses[i].id != buses[j].id
  }

  // ----- Marker styling -----

  datatype Colour = Green | Red | Blue

  function Hex(c: Colour): string {
    match c
    case Green => "#16a34a"
    case Red => "#dc2626"
    case Blue => "#2563eb"
  }

  /** Green for on time, red for delayed, blue for anything else (early). */
  function MarkerColour(s: Status): (c: Colour)
    ensures c == Green <==> s == OnTime
    ensures c == Red <==> s == Delayed
    ensures c == Blue <==> s == Early
  {
    match s
    case OnTime => Green
    case Delayed => Red
    case Early => Blue
  }

  /** The marker's fill tells the status apart: different statuses get different hex colours. */
  lemma ColourShowsStatus(s: Status, t: Status)
    ensures Hex(MarkerColour(s)) == Hex(MarkerColour(t)) <==> s == t
  {
  }

  /** `route.split(' ')[1]`, rendered "undefined" when the route has no second word. */
  function RouteLabel(route: string): (r: string)
    ensures ' ' !in r
    ensures ' ' !in route ==> r == "undefined"
  {
    var words := Split(route, ' ');
    assert ' ' !in route ==> words == [route] by {
      if ' ' !in route {
        SplitWithoutSeparator(route, ' ');
      }
    }
    if |words| > 1 then words[1] else "undefined"
  }

  lemma FirstPiece(b: string, sep: char, tail: string)
    requires sep !in b
    requires tail == [] || tail[0] == sep
    ensures Split(b + tail, sep)[0] == b
  {
    if tail == [] {
      assert b + tail == b;
      SplitWithoutSeparator(b, sep);
    } else {
      assert b + tail == b + [sep] + tail[1..];
      SplitAtFirst(b, sep, tail[1..]);
    }
  }

  /** The caption is the second space-separated word, whatever follows it. */
  lemma RouteLabelIsSecondWord(a: string, b: string, tail: string)
    requires ' ' !in a && ' ' !in b
    requires tail == [] || tail[0] == ' '
    ensures RouteLabel(a + " " + b + tail) == b
  {
    assert a + " " + b + tail == a + [' '] + (b + tail);
    SplitAtFirst(a, ' ', b + tail);
    FirstPiece(b, ' ', tail);
  }

  /** A route name of one word has no caption to show. */
  lemma RouteLabelOfOneWord(a: string)
    requires ' ' !in a
    ensures RouteLabel(a) == "undefined"
  {
    SplitWithoutSeparator(a, ' ');
  }

  /** A route called "Route <id>" is captioned with its id. */
  lemma RouteLabelOfRouteName(id: string)
    requires ' ' !in id
    ensures RouteLabel("Route " + id) == id
  {
    RouteLabelIsSecondWord("Route", id, "");
    assert "Route" + " " + id + "" == "Route " + id;
  }

  /** Every bus of the fleet is captioned with the id of its route: "Route 4B" gives "4B". */
  lemma FleetLabels(i: nat)
    requires i < |Fleet|
    ensures RouteLabel(Fleet[i].route) == ["4B", "7A", "12C", "9D"][i]
  {
    var id := ["4B", "7A", "12C", "9D"][i];
    assert Fleet[i].route == "Route " + id;
    RouteLabelOfRouteName(id);
  }

  // ----- Markers -----

  datatype Marker = Marker(colour: Colour, caption: string, passengersText: string, title: string)

  /** The marker of a bus: coloured by its status, captioned with the route's second word, showing its passenger count and titled with route and arrival time. */
  function MarkerFor(b: Bus): (m: Marker)
    ensures m.colour == Green <==> b.status == OnTime
    ensures m.colour == Red <==> b.status == Delayed
    ensures ' ' !in m.caption
    ensures m.caption == RouteLabel(b.route)
    ensures m.title == b.route + " - " + b.eta
    ensures IsCanonical(m.passengersText) && Value(m.passengersText) == b.passengers
  {
    ValueOfNatToString(b.passengers);
    Marker(MarkerColour(b.status), RouteLabel(b.route), NatToString(b.passengers), b.route + " - " + b.eta)
  }

  /** `addBusMarker`: without a map nothing happens; otherwise the bus's marker is stored under its id, replacing any earlier one. */
  function AddBusMarker(markers: map<string, Marker>, mapReady: bool, b: Bus): (r: map<string, Marker>)
    ensures !mapReady ==> r == markers
    ensures mapReady ==> r.Keys == markers.Keys + {b.id} && r[b.id] == MarkerFor(b)
    ensures forall id :: id in markers && id != b.id ==> id in r && r[id] == markers[id]
  {
    if !mapReady then markers else markers[b.id := MarkerFor(b)]
  }

  /** The `buses.forEach(addBusMarker)` loop of a successful initialisation. */
  function AddAll(markers: map<string, Marker>, buses: seq<Bus>): (r: map<string, Marker>)
    ensures r.Keys == markers.Keys + Ids(buses)
    ensures forall id :: id in markers && id !in Ids(buses) ==> r[id] == markers[id]
    decreases |buses|
  {
    if |buses| == 0 then markers
    else
      var rest := buses[1..];
      assert Ids(buses) == {buses[0].id} + Ids(rest) by {
        forall id | id in Ids(buses) ensures id in {buses[0].id} + Ids(rest) {
          var i :| 0 <= i < |buses| && buses[i].id == id;
          if i > 0 { assert rest[i - 1].id == id; }
        }
        forall id | id in Ids(rest) ensures id in Ids(buses) {
          var i :| 0 <= i < |rest| && rest[i].id == id;
          assert buses[i + 1].id == id;
        }
      }
      AddAll(AddBusMarker(markers, true, buses[0]), rest)
  }

  /** With distinct ids every bus ends up with its own marker. */
  lemma {:induction false} AddAllMarksEveryBus(markers: map<string, Marker>, buses: seq<Bus>)
    requires DistinctIds(buses)
    ensures forall i :: 0 <= i < |buses| ==> AddAll(markers, buses)[buses[i].id] == MarkerFor(buses[i])
    decreases |buses|
  {
    if |buses| > 0 {
      var rest := buses[1..];
      var m1 := AddBusMarker(markers, true, buses[0]);
      AddAllMarksEveryBus(m1, rest);
      assert forall i :: 0 <= i < |rest| ==> rest[i].id != buses[0].id by {
        forall i | 0 <= i < |rest| ensures rest[i].id != buses[0].id {
          assert rest[i] == buses[i + 1];
        }
      }
      assert buses[0].id !in Ids(rest);
      forall i | 0 <= i < |buses|
        ensures AddAll(markers, buses)[buses[i].id] == MarkerFor(buses[i])
      {
        if i > 0 {
          assert buses[i] == rest[i - 1];
        }
      }
    }
  }

  /** The bus ids of `Fleet`, written out; `FleetFacts` proves they are its id column. */
  const FleetIds: set<string> := {"4B-001", "7A-002", "12C-001", "9D-003"}

  lemma FleetFacts()
    ensures DistinctIds(Fleet)
    ensures Ids(Fleet) == FleetIds
  {
    assert Fleet[0].id == "4B-001" && Fleet[1].id == "7A-002";
    assert Fleet[2].id == "12C-001" && Fleet[3].id == "9D-003";
  }

  // ----- Key gating -----

  const Placeholder := "YOUR_GOOGLE_MAPS_API_KEY_HERE"
  /** The key compiled into the live map. */
  const CompiledKey := "YOUR_GOOGLE_MAPS_API_KEY_HERE"

  datatype State = State(apiKey: string, showForm: bool, loaded: bool, markers: map<string, Marker>)

  datatype Outcome = Outcome(state: State, toast: Option<Toast>)

  predicate UsableKey(key: string) {
    key != "" && key != Placeholder
  }

  /**
   `initializeMap`: nothing happens while the key form is shown (the map
   element is not mounted) or when the key is empty or the placeholder; a
   failed SDK load only reports an error; a successful one places one marker
   per bus.
   */
  function InitializeMap(s: State, loadSucceeds: bool): (r: Outcome)
    ensures s.showForm || !UsableKey(s.apiKey) ==> r == Outcome(s, None)
    ensures !s.showForm && UsableKey(s.apiKey) && !loadSucceeds ==>
      r.state == s && r.toast.Some? && r.toast.value.variant == Destructive
    ensures !s.showForm && UsableKey(s.apiKey) && loadSucceeds ==>
      && r.state.loaded && r.state.markers.Keys == s.markers.Keys + FleetIds
      && r.state.apiKey == s.apiKey && !r.state.showForm
      && r.toast.Some? && r.toast.value.title == "Map Loaded"
  {
    if s.showForm || !UsableKey(s.apiKey) then Outcome(s, None)
    else if !loadSucceeds then
      Outcome(s, Some(Toast("Map Error", "Failed to load Google Maps. Please check your API key.", Destructive)))
    else
      FleetFacts();
      Outcome(s.(loaded := true, markers := AddAll(s.markers, Fleet)),
              Some(Toast("Map Loaded", "Google Maps loaded successfully with live bus tracking!", Default)))
  }

  /** Mounting: the form is shown iff the compiled key is the placeholder; if it is not, the mount effect initialises the map. */
  function Mount(compiledKey: string, loadSucceeds: bool): (r: Outcome)
    ensures r.state.showForm <==> compiledKey == Placeholder
    ensures r.state.apiKey == compiledKey
    ensures compiledKey == Placeholder ==> !r.state.loaded && r.state.markers == map[] && r.toast.None?
  {
    var s := State(compiledKey, compiledKey == Placeholder, false, map[]);
    if !s.showForm then InitializeMap(s, loadSucceeds) else Outcome(s, None)
  }

  /** With the key as compiled, the page opens on the key form. */
  lemma CompiledKeyShowsForm(loadSucceeds: bool)
    ensures Mount(CompiledKey, loadSucceeds).state.showForm
    ensures !Mount(CompiledKey, loadSucceeds).state.loaded
  {
  }

  /**
   `updateApiKey`: a usable key hides the form and the effect that follows
   initialises the map (the direct call inside the handler still sees the
   form mounted and does nothing); any other key keeps the form and reports
   an error.
   */
  function UpdateApiKey(s: State, loadSucceeds: bool): (r: Outcome)
    ensures UsableKey(s.apiKey) ==> !r.state.showForm && r.state.apiKey == s.apiKey
    ensures UsableKey(s.apiKey) && s.showForm ==> r == InitializeMap(s.(showForm := false), loadSucceeds)
    ensures !UsableKey(s.apiKey) ==> r.state == s && r.toast.Some? && r.toast.value.variant == Destructive
  {
    if UsableKey(s.apiKey) then
      var direct := InitializeMap(s, loadSucceeds);
      var hidden := direct.state.(showForm := false);
      if s.showForm then InitializeMap(hidden, loadSucceeds) else Outcome(hidden, direct.toast)
    else
      Outcome(s, Some(Toast("API Key Required", "Please enter a valid Google Maps API key.", Destructive)))
  }

  /** "Change API Key": the form comes back; the map stays loaded underneath. */
  function ChangeApiKey(s: State): (r: State)
    ensures r.showForm
    ensures r.apiKey == s.apiKey && r.loaded == s.loaded && r.markers == s.markers
  {
    s.(showForm := true)
  }

  datatype Event = TypeKey(text: string) | PressLoad(loadSucceeds: bool) | PressChangeKey

  /**
   One event on the page. The key input and Load button exist only on the
   form, the Change button only beside the map. Typing sets the key, Load
   with a usable key hides the form (and with any other key changes
   nothing), and Change brings the form back.
   */
  function Step(s: State, e: Event): (r: State)
    ensures !s.showForm ==> r.apiKey == s.apiKey && r.loaded == s.loaded && r.markers == s.markers
    ensures r.apiKey != s.apiKey ==> s.showForm && e.TypeKey?
    ensures s.loaded ==> r.loaded
    ensures r.loaded && !s.loaded ==> s.showForm && e.PressLoad? && e.loadSucceeds && UsableKey(s.apiKey)
    ensures s.showForm && e.TypeKey? ==> r.apiKey == e.text && r.showForm
    ensures s.showForm && e.PressLoad? && UsableKey(s.apiKey) ==> !r.showForm
    ensures s.showForm && e.PressLoad? && !UsableKey(s.apiKey) ==> r == s
    ensures !s.showForm && e.PressChangeKey? ==> r.showForm
  {
    match e
    case TypeKey(text) => if s.showForm then s.(apiKey := text) else s
    case PressLoad(ok) => if s.showForm then UpdateApiKey(s, ok).state else s
    case PressChangeKey => if !s.showForm then ChangeApiKey(s) else s
  }

  function Run(s: State, es: seq<Event>): State
    decreases |es|
  {
    if |es| == 0 then s else Run(Step(s, es[0]), es[1..])
  }

  /** One marker per bus id once the map is loaded, none before; each bus's marker is the one built from it. */
  predicate Valid(s: State) {
    && s.markers.Keys == (if s.loaded then FleetIds else {})
    && (s.loaded ==> forall i :: 0 <= i < |Fleet| ==> s.markers[Fleet[i].id] == MarkerFor(Fleet[i]))
  }

  /** Adding the fleet to markers of fleet buses leaves exactly one marker per fleet bus, built from it. */
  lemma FleetMarkers(markers: map<string, Marker>)
    requires markers.Keys <= FleetIds
    ensures AddAll(markers, Fleet).Keys == FleetIds
    ensures forall i :: 0 <= i < |Fleet| ==> AddAll(markers, Fleet)[Fleet[i].id] == MarkerFor(Fleet[i])
  {
    FleetMarkerKeys(markers);
    FleetMarkerValues(markers);
  }

  lemma FleetMarkerKeys(markers: map<string, Marker>)
    requires markers.Keys <= FleetIds
    ensures AddAll(markers, Fleet).Keys == FleetIds
  {
    FleetFacts();
  }

  lemma FleetMarkerValues(markers: map<string, Marker>)
    ensures forall i :: 0 <= i < |Fleet| ==> AddAll(markers, Fleet)[Fleet[i].id] == MarkerFor(Fleet[i])
  {
    FleetFacts();
    AddAllMarksEveryBus(markers, Fleet);
  }

  /** A successful initialisation from a valid state leaves exactly the fleet's markers. */
  lemma InitializeKeepsValid(s: State, loadSucceeds: bool)
    requires Valid(s)
    ensures Valid(InitializeMap(s, loadSucceeds).state)
  {
    if !s.showForm && UsableKey(s.apiKey) && loadSucceeds {
      FleetMarkers(s.markers);
      var s' := s.(loaded := true, markers := AddAll(s.markers, Fleet));
      assert InitializeMap(s, loadSucceeds).state == s';
    }
  }

  lemma MountValid(compiledKey: string, loadSucceeds: bool)
    ensures Valid(Mount(compiledKey, loadSucceeds).state)
  {
    var s := State(compiledKey, compiledKey == Placeholder, false, map[]);
    InitializeKeepsValid(s, loadSucceeds);
  }

  lemma StepKeepsValid(s: State, e: Event)
    requires Valid(s)
    ensures Valid(Step(s, e))
  {
    match e
    case TypeKey(_) =>
    case PressChangeKey =>
    case PressLoad(ok) =>
      if s.showForm && UsableKey(s.apiKey) {
        InitializeKeepsValid(s.(showForm := false), ok);
      }
  }

  /** However often the key is changed and the map reloaded, the map holds exactly one marker per bus. */
  lemma {:induction false} RunKeepsValid(s: State, es: seq<Event>)
    requires Valid(s)
    ensures Valid(Run(s, es))
    ensures Run(s, es).loaded ==> |Run(s, es).markers| == |Fleet|
    decreases |es|
  {
    if |es| > 0 {
      StepKeepsValid(s, es[0]);
      RunKeepsValid(Step(s, es[0]), es[1..]);
    } else if s.loaded {
      assert |FleetIds| == 4;
    }
  }
}

=== FILE: notify.dfy ===
/**
 The notification surface the dashboards write to: a toast is a title, a
 description and a severity, fired and forgotten.
 */
module Notify {

  datatype Option<T> = None | Some(value: T)

  /** The two toast severities the dashboards use. */
  datatype Variant = Default | Destructive

  datatype Toast = Toast(title: string, description: string, variant: Variant)
}

=== FILE: passenger.dfy ===
/**
 The passenger dashboard's logic: the route planner's validation and canned
 answer, the acknowledgement of an issue report, and the badge a live bus's
 status gets. None of them changes any state beyond the toast it emits.
 */
module Passenger {
  import opened Text
  import opened Notify

  /** `part1` occurs in `text` and `part2` occurs after it. */
  ghost predicate ContainsInOrder(text: string, part1: string, part2: string) {
    exists i: nat, j: nat :: OccursAt(part1, text, i) && OccursAt(part2, text, j) && i + |part1| <= j
  }

  /** The two fields of the route planner. */
  datatype SearchForm = SearchForm(from: string, to: string)

  datatype PlanOutcome = PlanOutcome(form: SearchForm, toast: Toast)

  const MissingInput := Toast("Route Planning", "Please enter both origin and destination.", Destructive)

  /**
   `planRoute`: with an empty origin or destination only the validation
   toast is emitted; otherwise a "Route Found" toast whose description holds
   the origin and then the destination verbatim. The form is never changed.
   */
  function PlanRoute(f: SearchForm): (r: PlanOutcome)
    ensures r.form == f
    ensures f.from == "" || f.to == "" ==> r.toast == MissingInput
    ensures f.from != "" && f.to != "" ==>
      && r.toast.title == "Route Found" && r.toast.variant == Default
      && ContainsInOrder(r.toast.description, f.from, f.to)
  {
    if f.from == "" || f.to == "" then PlanOutcome(f, MissingInput)
    else
      var pre := "Best route: Take Route 4B from ";
      var d := pre + f.from + " to " + f.to + ". Estimated journey time: 18 minutes.";
      assert OccursAt(f.from, d, |pre|);
      assert OccursAt(f.to, d, |pre| + |f.from| + 4);
      PlanOutcome(f, Toast("Route Found", d, Default))
  }

  /** Two filled-in forms whose origins have the same length get the same answer only if they are the same form. */
  lemma PlanRouteSeparatesInputs(f: SearchForm, g: SearchForm)
    requires f.from != "" && f.to != "" && g.from != "" && g.to != ""
    requires |f.from| == |g.from|
    ensures PlanRoute(f).toast == PlanRoute(g).toast <==> f == g
  {
    var df, dg := PlanRoute(f).toast.description, PlanRoute(g).toast.description;
    var pre := |"Best route: Take Route 4B from "|;
    if df == dg {
      assert df[pre..pre + |f.from|] == f.from;
      assert dg[pre..pre + |g.from|] == g.from;
      var k := pre + |f.from| + 4;
      var suffix := |". Estimated journey time: 18 minutes."|;
      assert |df| == k + |f.to| + suffix;
      assert |dg| == k + |g.to| + suffix;
      assert df[k..k + |f.to|] == f.to;
      assert dg[k..k + |g.to|] == g.to;
    }
  }

  /** Without that length condition the answer can be ambiguous: " to " may sit inside either field. */
  lemma PlanRouteAmbiguous()
    ensures PlanRoute(SearchForm("a to b", "c")).toast == PlanRoute(SearchForm("a", "b to c")).toast
  {
  }

  /** `reportIssue`: an acknowledgement naming the reported route, nothing else. */
  function ReportIssue(busId: string, route: string): (r: Toast)
    ensures r.title == "Issue Reported" && r.variant == Default
    ensures Contains(r.description, route)
  {
    var pre := "Thank you for reporting an issue with ";
    var d := pre + route + ". We'll investigate immediately.";
    assert OccursAt(route, d, |pre|);
    Toast("Issue Reported", d, Default)
  }

  datatype BadgeVariant = DefaultBadge | DestructiveBadge

  /** The status badge of a live bus: its variant and whether it gets the accent colour. */
  datatype Badge = Badge(variant: BadgeVariant, accent: bool)

  function StatusBadge(status: string): (b: Badge)
    ensures b.variant == DefaultBadge <==> status == "on-time"
    ensures b.variant == DestructiveBadge <==> status != "on-time"
    ensures b.accent <==> b.variant == DefaultBadge
  {
    if status == "on-time" then Badge(DefaultBadge, true) else Badge(DestructiveBadge, false)
  }

  datatype LiveBus = LiveBus(id: string, route: string, location: string, eta: string, passengers: nat, status: string)

  const LiveBuses: seq<LiveBus> := [
    LiveBus("4B-001", "Route 4B", "Downtown Plaza", "3 min", 18, "on-time"),
    LiveBus("7A-002", "Route 7A", "University", "7 min", 24, "delayed"),
    LiveBus("12C-001", "Route 12C", "Mall", "12 min", 8, "on-time"),
    LiveBus("9D-003", "Route 9D", "Business District", "15 min", 31, "on-time")
  ]

  /** In the live list only the delayed 7A bus gets a destructive badge. */
  lemma OnlyDelayedBusFlagged(i: nat)
    requires i < |LiveBuses|
    ensures StatusBadge(LiveBuses[i].status).variant == DestructiveBadge <==> LiveBuses[i].id == "7A-002"
  {
  }
}

=== FILE: text.dfy ===
/**
 Text helpers shared by the dashboards: the decimal rendering of a
 non-negative integer (`Number.prototype.toString`), left padding
 (`String.prototype.padStart`) and splitting on a one-character separator
 (`String.prototype.split`), each with the inverse or reference definition
 that pins down what it produces.
 */
module Text {

  /** True iff every character of `s` is a decimal digit. */
  predicate IsDigits(s: string) {
    forall i :: 0 <= i < |s| ==> '0' <= s[i] <= '9'
  }

  /** Decimal text without superfluous leading zeros: "0", "7", "42", never "07". */
  predicate IsCanonical(s: string) {
    |s| >= 1 && IsDigits(s) && (|s| == 1 || s[0] != '0')
  }

  function DigitChar(d: nat): (c: char)
    requires d < 10
    ensures '0' <= c <= '9'
    ensures DigitValue(c) == d
  {
    ('0' as int + d) as char
  }

  function DigitValue(c: char): (d: nat)
    requires '0' <= c <= '9'
    ensures d < 10
  {
    c as int - '0' as int
  }

  /** The decimal text of `n`, as JavaScript prints a non-negative integer. */
  function NatToString(n: nat): (s: string)
    ensures IsCanonical(s)
    ensures s[0] == '0' <==> n == 0
    decreases n
  {
    if n < 10 then [DigitChar(n)]
    else NatToString(n / 10) + [DigitChar(n % 10)]
  }

  /** The number a string of decimal digits denotes (leading zeros allowed). */
  function Value(s: string): nat
    requires IsDigits(s)
    decreases |s|
  {
    if |s| == 0 then 0
    else Value(s[..|s| - 1]) * 10 + DigitValue(s[|s| - 1])
  }

  /** Reading back the decimal text of `n` gives `n`. */
  lemma {:induction false} ValueOfNatToString(n: nat)
    ensures Value(NatToString(n)) == n
    decreases n
  {
    var s := NatToString(n);
    if n < 10 {
      assert s[..|s| - 1] == [];
    } else {
      var q := NatToString(n / 10);
      assert s[..|s| - 1] == q;
      ValueOfNatToString(n / 10);
    }
  }

  /** Two numbers with the same decimal text are equal. */
  lemma NatToStringInjective(a: nat, b: nat)
    ensures NatToString(a) == NatToString(b) <==> a == b
  {
    ValueOfNatToString(a);
    ValueOfNatToString(b);
  }

  /** A leading zero does not change the value of a digit string. */
  lemma {:induction false} ValueLeadingZero(s: string)
    requires IsDigits(s)
    ensures IsDigits(['0'] + s)
    ensures Value(['0'] + s) == Value(s)
    decreases |s|
  {
    var t := ['0'] + s;
    if |s| == 0 {
      assert t[..|t| - 1] == [];
    } else {
      assert t[..|t| - 1] == ['0'] + s[..|s| - 1];
      ValueLeadingZero(s[..|s| - 1]);
    }
  }

  /** `n` copies of `c`. */
  function Repeat(c: char, n: nat): (r: string)
    ensures |r| == n
    ensures forall i :: 0 <= i < n ==> r[i] == c
  {
    seq(n, _ => c)
  }

  /** `s` padded on the left with `fill` up to `width` characters; longer strings are left alone. */
  function PadStart(s: string, width: nat, fill: char): (r: string)
    ensures |r| == if |s| >= width then |s| else width
    ensures forall i :: 0 <= i < |s| ==> r[|r| - |s| + i] == s[i]
    ensures forall i :: 0 <= i < |r| - |s| ==> r[i] == fill
  {
    if |s| >= width then s else Repeat(fill, width - |s|) + s
  }

  /** Zero padding keeps a digit string a digit string and keeps its value. */
  lemma ZeroPadKeepsValue(s: string, width: nat)
    requires IsDigits(s)
    ensures IsDigits(PadStart(s, width, '0'))
    ensures Value(PadStart(s, width, '0')) == Value(s)
  {
    if |s| < width {
      LeadingZerosKeepValue(width - |s|, s);
    }
  }

  /** Any number of leading zeros leaves the value of a digit string unchanged. */
  lemma {:induction false} LeadingZerosKeepValue(k: nat, s: string)
    requires IsDigits(s)
    ensures IsDigits(Repeat('0', k) + s)
    ensures Value(Repeat('0', k) + s) == Value(s)
    decreases k
  {
    if k > 0 {
      var t := Repeat('0', k - 1) + s;
      assert Repeat('0', k) + s == ['0'] + t;
      LeadingZerosKeepValue(k - 1, s);
      ValueLeadingZero(t);
    } else {
      assert Repeat('0', k) + s == s;
    }
  }

  /**
   The pieces of `s` between occurrences of `sep`, as JavaScript's
   `split` with a one-character separator: "" gives [""], "a b" gives ["a", "b"].
   */
  function Split(s: string, sep: char): (parts: seq<string>)
    ensures |parts| >= 1
    ensures forall i :: 0 <= i < |parts| ==> sep !in parts[i]
    decreases |s|
  {
    if |s| == 0 then [""]
    else
      var rest := Split(s[1..], sep);
      if s[0] == sep then [""] + rest
      else [[s[0]] + rest[0]] + rest[1..]
  }

  /** The pieces glued back together with `sep` between them. */
  function Join(parts: seq<string>, sep: char): string
    requires |parts| >= 1
    decreases |parts|
  {
    if |parts| == 1 then parts[0] else parts[0] + [sep] + Join(parts[1..], sep)
  }

  /** Splitting loses nothing: joining the pieces restores the text. */
  lemma {:induction false} JoinSplit(s: string, sep: char)
    ensures Join(Split(s, sep), sep) == s
    decreases |s|
  {
    if |s| > 0 {
      JoinSplit(s[1..], sep);
      var rest := Split(s[1..], sep);
      if s[0] != sep && |rest| > 1 {
        assert rest[1..][1..] == rest[2..];
        assert Join(rest, sep) == rest[0] + [sep] + Join(rest[1..], sep);
      }
    }
  }

  /** Text without the separator is a single piece. */
  lemma {:induction false} SplitWithoutSeparator(s: string, sep: char)
    requires sep !in s
    ensures Split(s, sep) == [s]
    decreases |s|
  {
    if |s| > 0 {
      assert sep !in s[1..];
      SplitWithoutSeparator(s[1..], sep);
      assert [s[0]] + s[1..] == s;
    }
  }

  /** The first separator ends the first piece. */
  lemma {:induction false} SplitAtFirst(a: string, sep: char, b: string)
    requires sep !in a
    ensures Split(a + [sep] + b, sep) == [a] + Split(b, sep)
    decreases |a|
  {
    if |a| > 0 {
      assert (a + [sep] + b)[1..] == a[1..] + [sep] + b;
      assert sep !in a[1..];
      SplitAtFirst(a[1..], sep, b);
      assert [a[0]] + a[1..] == a;
    } else {
      assert a + [sep] + b == [sep] + b;
    }
  }

  /** Splitting a join of separator-free pieces gives the pieces back. */
  lemma {:induction false} SplitJoin(parts: seq<string>, sep: char)
    requires |parts| >= 1
    requires forall i :: 0 <= i < |parts| ==> sep !in parts[i]
    ensures Split(Join(parts, sep), sep) == parts
    decreases |parts|
  {
    if |parts| == 1 {
      SplitWithoutSeparator(parts[0], sep);
    } else {
      SplitJoin(parts[1..], sep);
      SplitAtFirst(parts[0], sep, Join(parts[1..], sep));
      assert [parts[0]] + parts[1..] == parts;
    }
  }

  /** `part` occurs in `text` starting at position `at`. */
  predicate OccursAt(part: string, text: string, at: nat) {
    at + |part| <= |text| && text[at..at + |part|] == part
  }

  /** `part` occurs somewhere in `text`. */
  predicate Contains(text: string, part: string) {
    exists at: nat | at <= |text| :: OccursAt(part, text, at)
  }
}

=== FILE: trip_clock.dfy ===
/**
 The two renderings of an elapsed trip time on the driver dashboard:
 the live `formatTime` display (`H:MM:SS` from one hour on, `M:SS` below)
 and the end-of-trip summary (`M:SS` with minutes not reduced modulo 60).
 `ParseClock` reads either form back; both renderings are proved to
 round-trip through it.
 */
module TripClock {
  import opened Text
  import opened Notify
  import opened Arith

  datatype Clock = Clock(hours: nat, minutes: nat, seconds: nat)

  function Total(c: Clock): nat {
    c.hours * 3600 + c.minutes * 60 + c.seconds
  }

  predicate Normal(c: Clock) {
    c.minutes < 60 && c.seconds < 60
  }

  /** The hours, minutes and seconds `formatTime` derives from a second count. */
  function Decompose(total: nat): (c: Clock)
    ensures Normal(c)
    ensures Total(c) == total
  {
    var h := total / 3600;
    var rest := total % 3600;
    var m := rest / 60;
    var s := total % 60;
    SecondsOfRest(total, h, rest);
    Clock(h, m, s)
  }

  /** The seconds field taken from the full count equals the one taken from the sub-hour rest. */
  lemma SecondsOfRest(total: nat, h: nat, rest: nat)
    requires h == total / 3600 && rest == total % 3600
    ensures total % 60 == rest % 60
    ensures total == h * 3600 + (rest / 60) * 60 + rest % 60
  {
    assert total == h * 3600 + rest;
    assert rest == (rest / 60) * 60 + rest % 60;
    assert total == (h * 60 + rest / 60) * 60 + rest % 60;
    DivModUnique(total, 60, h * 60 + rest / 60, rest % 60);
  }

  /** The only normal clock with a given total is the one `Decompose` yields. */
  lemma DecomposeUnique(c: Clock)
    requires Normal(c)
    ensures Decompose(Total(c)) == c
  {
    var t := Total(c);
    var rest := c.minutes * 60 + c.seconds;
    assert rest < 3600;
    DivModUnique(t, 3600, c.hours, rest);
    DivModUnique(rest, 60, c.minutes, c.seconds);
  }

  function Pad2(s: string): string {
    PadStart(s, 2, '0')
  }

  /**
   `formatTime` of the driver dashboard: read back it gives the elapsed
   seconds, and it has three colon-separated fields exactly from one hour on.
   */
  function FormatTime(total: nat): (r: string)
    ensures ParseClock(r) == Some(total)
    ensures |Split(r, ':')| == 3 <==> total >= 3600
    ensures |Split(r, ':')| == 2 <==> total < 3600
  {
    var c := Decompose(total);
    HoursPositive(total);
    RenderFields(c);
    RenderRoundTrip(c);
    Render(c)
  }

  /** The text of a clock: `H:MM:SS` when it has hours, `M:SS` otherwise. */
  function Render(c: Clock): string {
    if c.hours > 0 then
      NatToString(c.hours) + ":" + Pad2(NatToString(c.minutes)) + ":" + Pad2(NatToString(c.seconds))
    else
      NatToString(c.minutes) + ":" + Pad2(NatToString(c.seconds))
  }

  /** The duration text of the "Trip Ended" toast: two fields that read back as the duration. */
  function TripSummary(duration: nat): (r: string)
    ensures ParseClock(r) == Some(duration)
    ensures |Split(r, ':')| == 2
  {
    var a, b := NatToString(duration / 60), Pad2(NatToString(duration % 60));
    TwoDigits(duration % 60);
    ValueOfNatToString(duration / 60);
    FieldsOfTwo(a, b);
    ParseClockByFields(a + ":" + b, [a, b]);
    ParseTwoFields(a, b);
    a + ":" + b
  }

  /** A field of a clock text: one or more decimal digits. */
  predicate IsField(f: string) {
    |f| >= 1 && IsDigits(f)
  }

  /** Reads `M:SS` or `H:MM:SS` (any digit counts) back into seconds; anything else is None. */
  function ParseClock(text: string): Option<nat> {
    ParseFields(Split(text, ':'))
  }

  /** The seconds denoted by the colon-separated fields of a clock text. */
  function ParseFields(f: seq<string>): Option<nat> {
    if |f| == 2 && IsField(f[0]) && IsField(f[1]) then
      Some(Value(f[0]) * 60 + Value(f[1]))
    else if |f| == 3 && IsField(f[0]) && IsField(f[1]) && IsField(f[2]) then
      Some(Value(f[0]) * 3600 + Value(f[1]) * 60 + Value(f[2]))
    else
      None
  }

  /** A number below 100 printed and padded to two digits: exactly two digits denoting it. */
  lemma TwoDigits(n: nat)
    requires n < 100
    ensures |Pad2(NatToString(n))| == 2
    ensures IsField(Pad2(NatToString(n)))
    ensures Value(Pad2(NatToString(n))) == n
  {
    var s := NatToString(n);
    ShortText(n);
    ValueOfNatToString(n);
    ZeroPadKeepsValue(s, 2);
  }

  /** A number below 100 prints as at most two digits. */
  lemma ShortText(n: nat)
    requires n < 100
    ensures |NatToString(n)| <= 2
  {
    if n >= 10 {
      assert n / 10 < 10;
      assert |NatToString(n / 10)| == 1;
    }
  }

  lemma HoursPositive(total: nat)
    ensures total / 3600 > 0 <==> total >= 3600
  {
  }

  /** The fields of the two-field text `a:b` are `a` and `b`. */
  lemma FieldsOfTwo(a: string, b: string)
    requires IsDigits(a) && IsDigits(b)
    ensures Split(a + ":" + b, ':') == [a, b]
  {
    SplitJoin([a, b], ':');
    assert Join([a, b], ':') == a + ":" + b;
  }

  /** The fields of the three-field text `a:b:c` are `a`, `b` and `c`. */
  lemma FieldsOfThree(a: string, b: string, c: string)
    requires IsDigits(a) && IsDigits(b) && IsDigits(c)
    ensures Split(a + ":" + b + ":" + c, ':') == [a, b, c]
  {
    SplitJoin([a, b, c], ':');
    assert [a, b, c][1..] == [b, c];
    assert [b, c][1..] == [c];
    assert Join([b, c], ':') == b + ":" + c;
    assert Join([a, b, c], ':') == a + ":" + (b + ":" + c);
    assert a + ":" + (b + ":" + c) == a + ":" + b + ":" + c;
  }

  /**
   The live display has three colon-separated fields exactly from one hour
   on and two below it. With hours the minutes and seconds are padded to two
   digits; without, only the seconds are padded and the minutes are printed
   without leading zeros. The last field reads as the seconds below 60, the
   one before it as the minutes below 60, and the first of three as the
   hours.
   */
  lemma FormatTimeShape(total: nat)
    ensures var f := Split(FormatTime(total), ':');
      && (|f| == 3 <==> total >= 3600)
      && (|f| == 2 <==> total < 3600)
      && (total >= 3600 ==> IsCanonical(f[0]) && |f[1]| == 2 && |f[2]| == 2)
      && (total < 3600 ==> IsCanonical(f[0]) && |f[1]| == 2)
      && Value(f[|f| - 1]) == total % 60
      && Value(f[|f| - 2]) == (total % 3600) / 60
      && (total >= 3600 ==> Value(f[0]) == total / 3600)
  {
    var c := Decompose(total);
    var f := Split(FormatTime(total), ':');
    HoursPositive(total);
    TwoDigits(c.minutes);
    TwoDigits(c.seconds);
    ValueOfNatToString(c.hours);
    ValueOfNatToString(c.minutes);
    RenderFields(c);
    if c.hours > 0 {
      assert f == [NatToString(c.hours), Pad2(NatToString(c.minutes)), Pad2(NatToString(c.seconds))];
    } else {
      assert f == [NatToString(c.minutes), Pad2(NatToString(c.seconds))];
    }
  }

  /** The colon-separated fields of a clock's text. */
  lemma RenderFields(c: Clock)
    requires Normal(c)
    ensures c.hours > 0 ==>
      Split(Render(c), ':') == [NatToString(c.hours), Pad2(NatToString(c.minutes)), Pad2(NatToString(c.seconds))]
    ensures c.hours == 0 ==>
      Split(Render(c), ':') == [NatToString(c.minutes), Pad2(NatToString(c.seconds))]
  {
    var s := Pad2(NatToString(c.seconds));
    TwoDigits(c.minutes);
    TwoDigits(c.seconds);
    if c.hours > 0 {
      var h, m := NatToString(c.hours), Pad2(NatToString(c.minutes));
      assert Render(c) == h + ":" + m + ":" + s;
      FieldsOfThree(h, m, s);
    } else {
      var m := NatToString(c.minutes);
      assert Render(c) == m + ":" + s;
      FieldsOfTwo(m, s);
    }
  }

  /** Reading a clock's text back gives its total in seconds. */
  lemma RenderRoundTrip(c: Clock)
    requires Normal(c)
    ensures ParseClock(Render(c)) == Some(Total(c))
  {
    if c.hours > 0 {
      RenderHoursRoundTrip(c);
    } else {
      RenderMinutesRoundTrip(c);
    }
  }

  /** The display cannot show two durations alike: it is injective. */
  lemma FormatTimeInjective(a: nat, b: nat)
    ensures FormatTime(a) == FormatTime(b) <==> a == b
  {
    var ra, rb := FormatTime(a), FormatTime(b);
    assert ParseClock(ra) == Some(a) && ParseClock(rb) == Some(b);
  }

  lemma RenderHoursRoundTrip(c: Clock)
    requires Normal(c) && c.hours > 0
    ensures ParseClock(Render(c)) == Some(Total(c))
  {
    var h, m, s := NatToString(c.hours), Pad2(NatToString(c.minutes)), Pad2(NatToString(c.seconds));
    TwoDigits(c.minutes);
    TwoDigits(c.seconds);
    ValueOfNatToString(c.hours);
    RenderFields(c);
    ParseClockByFields(Render(c), [h, m, s]);
    ParseThreeFields(h, m, s);
  }

  lemma RenderMinutesRoundTrip(c: Clock)
    requires Normal(c) && c.hours == 0
    ensures ParseClock(Render(c)) == Some(Total(c))
  {
    var m, s := NatToString(c.minutes), Pad2(NatToString(c.seconds));
    TwoDigits(c.seconds);
    ValueOfNatToString(c.minutes);
    RenderFields(c);
    ParseClockByFields(Render(c), [m, s]);
    ParseTwoFields(m, s);
  }

  lemma ParseClockByFields(text: string, f: seq<string>)
    requires Split(text, ':') == f
    ensures ParseClock(text) == ParseFields(f)
  {
  }

  lemma ParseTwoFields(a: string, b: string)
    requires IsField(a) && IsField(b)
    ensures ParseFields([a, b]) == Some(Value(a) * 60 + Value(b))
  {
  }

  lemma ParseThreeFields(a: string, b: string, c: string)
    requires IsField(a) && IsField(b) && IsField(c)
    ensures ParseFields([a, b, c]) == Some(Value(a) * 3600 + Value(b) * 60 + Value(c))
  {
  }

  /**
   The summary is two fields: the whole minutes, not reduced modulo 60 and
   printed without leading zeros, then the seconds padded to two digits; read
   back it gives the duration.
   */
  lemma TripSummaryShape(duration: nat)
    ensures var f := Split(TripSummary(duration), ':');
      && |f| == 2
      && IsCanonical(f[0]) && Value(f[0]) == duration / 60
      && |f[1]| == 2 && IsDigits(f[1]) && Value(f[1]) == duration % 60
    ensures ParseClock(TripSummary(duration)) == Some(duration)
  {
    var a, b := NatToString(duration / 60), Pad2(NatToString(duration % 60));
    TwoDigits(duration % 60);
    ValueOfNatToString(duration / 60);
    SummaryFields(duration);
    var f := Split(TripSummary(duration), ':');
    assert f == [a, b];
    ParseClockByFields(TripSummary(duration), [a, b]);
    ParseTwoFields(a, b);
  }

  /** The summary's fields are the printed minutes and the padded seconds. */
  lemma SummaryFields(duration: nat)
    ensures Split(TripSummary(duration), ':') == [NatToString(duration / 60), Pad2(NatToString(duration % 60))]
  {
    var a, b := NatToString(duration / 60), Pad2(NatToString(duration % 60));
    TwoDigits(duration % 60);
    assert TripSummary(duration) == a + ":" + b;
    FieldsOfTwo(a, b);
  }

  /** Below one hour the summary reads exactly like the live display. */
  lemma SummaryMatchesDisplayBelowHour(duration: nat)
    requires duration < 3600
    ensures TripSummary(duration) == FormatTime(duration)
  {
    var c := Decompose(duration);
    DivModUnique(duration, 3600, 0, duration);
  }

  /** From one hour on the summary and the live display always differ. */
  lemma SummaryDiffersFromDisplayFromHour(duration: nat)
    requires duration >= 3600
    ensures TripSummary(duration) != FormatTime(duration)
  {
    TripSummaryShape(duration);
    FormatTimeShape(duration);
  }
}
